=== FILE: README.md ===
# QWeather client: request gate and response classifier

A Dafny model of the polling client of the QWeather integration for Home
Assistant. The client keeps one piece of mutable state, `_wait_until`, the
instant before which it refuses to contact the provider. Every call first
checks this gate. If the call passes, the client reads the provider's status
`code` from the JSON body (not the HTTP status) and uses it to decide two
things: whether the body is handed back, and how far `_wait_until` moves:

| code | body | `_wait_until` |
|---|---|---|
| 200 | handed back | unchanged |
| 204, 400, 401, 403, 404 | dropped | infinity |
| 402 | dropped | start of the next local day |
| 429, 500 | dropped | now + 60 s |
| anything else, or missing | dropped | now + 600 s |
| empty body | dropped | unchanged |

Seven feed wrappers (`update_observation` … `update_indices_1d`) replace
"nothing came back" with a fixed empty value. A city lookup falls back to the
placeholder "未知" ("unknown"). The repository holds two copies of the client:
`core/q_client.py`, which the integration runs, and `api.py`. Both are
modelled, along with a proof that they behave the same. The pure parts of the
weather entity (`weather.py`) are modelled too: the icon-to-condition table,
the guards of the observation and daily updates, and the minute-level
precipitation projection.

Modules, one per file:

- `Wrappers` (`wrappers.dfy`): `Option`, and `Attempt` for "returns or raises".
- `Json` (`json.dfy`): decoded JSON values with Python's truthiness,
  `dict.get`, iteration of a value whose elements are used as dicts, and slicing.
- `Clock` (`clock.dfy`): `WaitUntil = Finite(t) | Infinite`, the clock readings
  of one call, and the next local midnight.
- `Classifier` (`classifier.dfy`): the shared code table and `Settle`, the
  part of `url_get` after the response.
- `Endpoints` (`endpoints.dfy`): the seven feeds. Their URLs, extra parameters
  and extraction, and the city-name extraction.
- `Location` (`location.dfy`): the `location` query parameter built from two
  rounded coordinates.
- `QClient` (`q_client.dfy`) and `Api` (`api.py` copy, `api.dfy`): the two
  clients.
- `Equivalence` (`equivalence.dfy`): the two copies agree.
- `Weather` (`weather.dfy`): the entity-side projections.

Every call is a pure function. Its inputs are the client before the call, the
clock readings and the body the provider answered. Its outputs are the
returned value, the request sent (if any) and the client after the call. Time
is whole seconds since the epoch. The gate reads the clock before the request;
the classifier's branches read it again after the response (`Moment.atGate`,
`Moment.atReply`).

Three points where the code's behaviour is easy to misread:

- A daily-forecast body carrying `"daily": null` yields null, not an empty
  list. `.get("daily", [])` falls back only when the key is absent
  (`Endpoints.DefaultedListFeeds`).
- `_wait_until` starts at 0, not at "now". The first call passes either way.
- The deadline only moves later when calls run one after another and the
  clock does not run backwards during a call (`QClient.DeadlineMonotone`).
  Two calls that both passed the gate before either answered can overwrite
  infinity with a finite backoff (`QClient.InterleavedBackoffOverridesBlock`).

## Model

| member | source | states |
|---|---|---|
| `Classifier.Classify` | custom_components/qweather/core/q_client.py:166-210 | Only the string "200" is accepted. Exactly 204/400/401/403/404 block forever, and only 402 blocks until midnight. Backoffs are 60 or 600 s. A non-string or missing code gets the 600 s default. |
| `Classifier.ClassifyMatchesTable` | custom_components/qweather/core/q_client.py:167-210 | The classifier agrees with the provider's code table written as data. Every string outside the table backs off 600 s. |
| `Classifier.Suspend` | custom_components/qweather/core/q_client.py:170-210 | Only acceptance keeps the deadline. Blocking sets infinity. 402 sets a time in (now, now + 1 day]. A backoff sets now + seconds. Every failure verdict shuts the gate at now. |
| `Classifier.Settle` | custom_components/qweather/core/q_client.py:162-210 | An empty or missing body returns nothing and keeps the deadline. A body comes back iff it is present with code "200", and then it is unchanged and so is the deadline. Any deadline change shuts the gate at the reply time. |
| `Classifier.SettleTable` | custom_components/qweather/core/q_client.py:167-210 | The full decision table, row by row: body and new deadline for 200, the blocking codes, 402, 429/500 and the default. |
| `Classifier.BlockingIdempotent` | custom_components/qweather/core/q_client.py:170-198 | A second blocking answer leaves the deadline at infinity. The outcome equals that of the first. |
| `Clock.NextLocalMidnight` | custom_components/qweather/core/q_client.py:186-187 | "Today 00:00 plus one day" lies strictly after now, at most a day later, and on a local day boundary. |
| `Clock.NextLocalMidnightIsEarliest` | custom_components/qweather/core/q_client.py:186-187 | No local midnight lies strictly between now and the one chosen. |
| `QClient.Create` | custom_components/qweather/core/q_client.py:29-95 | Params hold exactly `location` and `key`. The location text reads back as the two coordinates. The deadline starts at 0, the city at "未知", and the weather type follows the grid option. |
| `QClient.MergeParams` | custom_components/qweather/core/q_client.py:160 | The base keys are always present. Extra parameters override shared keys. Base-only keys keep their values, and no other keys appear. |
| `QClient.UrlGet` | custom_components/qweather/core/q_client.py:156-210 | When `_wait_until > now` it sends nothing, returns nothing and changes nothing. Otherwise it sends the merged parameters to the URL. It returns a body exactly when the call passed the gate and the body is non-empty with code "200", and then the body is unchanged and so is the client. After any other present body the deadline is the one the code's verdict sets at the reply time. Only the deadline ever changes. |
| `QClient.ApiGet` | custom_components/qweather/core/q_client.py:153-154 | A sent request goes to the v7 API root followed by the feed path. A gated call sends nothing. Data comes back exactly when the call passed the gate with a 200 answer. |
| `QClient.Update` | custom_components/qweather/core/q_client.py:111-151 | A gated call yields the feed's fallback (`Endpoints.Fallback`), sends nothing and keeps the client. After a 200 answer it yields the extracted payload and keeps the client. Every other outcome yields the fallback. Only the deadline changes, and it is the one `url_get` leaves. A sent request goes to the feed's URL with the client's params, plus `type=0` for the indices feed. |
| `QClient.LoadCity` | custom_components/qweather/core/q_client.py:106-109 | Without a 200 answer the city stays and the deadline is the one `url_get` leaves. A 200 answer with a missing or empty `location` leaves the client unchanged. After a 200 answer whose `location` list starts with a dict, the city becomes that dict's `name`, or "未知" when it has none, and nothing else changes. It raises exactly when a 200 answer has a truthy `location` that is not such a list. |
| `QClient.NamedAnswerSetsCity` | custom_components/qweather/core/q_client.py:106-109 | An ungated lookup answered with code 200 and a first location named n stores n as the city and changes nothing else. |
| `QClient.BlockedForever` | custom_components/qweather/core/q_client.py:157-158 | Once `_wait_until` is infinite, every later call of any sequence is gated. Each yields its fallback, sends nothing and leaves the client unchanged. |
| `QClient.UpdateNeverMovesBack` | custom_components/qweather/core/q_client.py:156-210 | One call never moves the deadline earlier, when the clock does not run backwards within the call. |
| `QClient.DeadlineMonotone` | custom_components/qweather/core/q_client.py:156-210 | Over any sequence of calls the deadline only moves later. |
| `QClient.GateAfterCall` | custom_components/qweather/core/q_client.py:167-210 | After a call that passed the gate: 200 leaves it open at the same instant. Blocking codes shut it at every time. 402 shuts it exactly until the next local midnight, 429/500 exactly until reply + 60, and any other code exactly until reply + 600. |
| `QClient.RejectedCallFallsBack` | custom_components/qweather/core/q_client.py:111-151 | A call that passed the gate and got any non-200 answer yields the feed's fallback, and the gate is shut when the answer arrives. |
| `QClient.EmptyBodyKeepsState` | custom_components/qweather/core/q_client.py:163-165 | An empty or missing body returns nothing and leaves the client unchanged. |
| `QClient.InterleavedBackoffOverridesBlock` | custom_components/qweather/core/q_client.py:178-202 | A 401 settled first and a 429 settled second leave a finite deadline: the permanent block is lost. |
| `Endpoints.Extra` | custom_components/qweather/core/q_client.py:150 | Only the indices feed sends extra parameters. |
| `Endpoints.Extract` | custom_components/qweather/core/q_client.py:111-151 | When `url_get` gave nothing, each wrapper yields its fixed fallback. |
| `Endpoints.NoDataFallbacks` | custom_components/qweather/core/q_client.py:111-151 | Without data the fallbacks (`Endpoints.Fallback`) are: `[]` for the list feeds, None for observation and air, and an empty summary with no minute items for precipitation. |
| `Endpoints.DefaultedListFeeds` | custom_components/qweather/core/q_client.py:116-119 | Daily forecast and warnings give `[]` only when their key is absent. Otherwise they give the stored value unchanged, null included. |
| `Endpoints.PayloadPassedThrough` | custom_components/qweather/core/q_client.py:111-151 | With data, observation and air hand over `now` unmodified, the hourly feed `hourly` and the indices feed `daily`, and each gives null when its key is missing. For hourly and indices that null stands in for a list. Precipitation copies `summary` (default "") and `minutely` (default `[]`). |
| `Endpoints.MinutelyShape` | custom_components/qweather/core/q_client.py:131-141 | The precipitation wrapper always yields an object with exactly the keys `summary` and `minutely`. |
| `Endpoints.CityName` | custom_components/qweather/api.py:38-44 | Gives the placeholder when nothing came back or `location` is missing or empty. When `location` is a list starting with a dict, gives that dict's `name`, or the placeholder when it has none. Raises exactly when `location` is truthy but not such a list. |
| `Endpoints.UrlsDistinct` | custom_components/qweather/core/q_client.py:111-154 | The seven feeds (`Endpoints.Path`) are fetched from seven different URLs, for grid and city weather alike. |
| `Location.CoordinateRoundTrip` | custom_components/qweather/core/q_client.py:40 | A coordinate in hundredths prints, as `f"{longitude}"` prints the rounded float, to text that parses back to the same coordinate. |
| `Location.LocationRoundTrip` | custom_components/qweather/core/q_client.py:40 | The `"{longitude},{latitude}"` parameter parses back to the two coordinates. |
| `Api.Create` | custom_components/qweather/api.py:26-36 | Params are exactly the given location text and key. The deadline starts at 0. |
| `Api.MergeParams` | custom_components/qweather/api.py:99 | The base keys are always present. Extras override. Keys outside the extras come from the base. |
| `Api.UrlGet` | custom_components/qweather/api.py:93-155 | When `now < _wait_until` it sends nothing and changes nothing. Otherwise it sends the merged parameters. It returns a body exactly when the call passed the gate with a non-empty 200 answer, and the body is unchanged. After any other present body the deadline is the one the verdict sets. An empty body keeps the client. |
| `Api.ApiGet` | custom_components/qweather/api.py:88-91 | A sent request goes to the v7 API root followed by the feed path. A gated call sends nothing. Data comes back exactly when the call passed the gate with a 200 answer. |
| `Api.Update` | custom_components/qweather/api.py:46-86 | A gated call yields the fallback and keeps the client. After a 200 answer it yields the extracted payload. Any other outcome yields the fallback. Only the deadline changes. A sent request goes to the feed's URL with the client's params, plus `type=0` for the indices feed. |
| `Api.CityLookup` | custom_components/qweather/api.py:38-44 | After a 200 answer it returns the name `Endpoints.CityName` reads and keeps the client. Otherwise it returns "未知", and the client is the one `url_get` leaves. |
| `Api.NamedAnswerIsReturned` | custom_components/qweather/api.py:38-44 | An ungated lookup answered with code 200 and a first location named n returns n and keeps the client. |
| `Equivalence.GatesAgree` | custom_components/qweather/api.py:96 | `_wait_until > now` and `now < _wait_until` shut the gate at the same instants. |
| `Equivalence.MergesAgree` | custom_components/qweather/api.py:99 | Merging on `is None` and merging on truthiness give the same parameters for every input. |
| `Equivalence.CreateAgrees` | custom_components/qweather/api.py:35 | The client built from two coordinates equals the `api.py` client given their location text. |
| `Equivalence.UpdatesAgree` | custom_components/qweather/api.py:46-155 | Both copies return the same value, send the same request and end with the same deadline, for every feed, clock and body. |
| `Equivalence.CityAgrees` | custom_components/qweather/core/q_client.py:106-109 | The city the integration stores equals the name `city_lookup` returns, and both raise on the same input. |
| `Weather.ConditionOf` | custom_components/qweather/weather.py:160 | A string icon is looked up in the icon table, so an unlisted code gives no condition. A list or dict icon raises, because the table lookup hashes it. A missing, numeric or boolean icon gives no condition. Every condition comes from a three-character string code. |
| `Weather.ConditionMap` | custom_components/qweather/weather.py:474-537 | The icon table. Every code it lists is three decimal digits. |
| `Weather.TableRespectsFamilies` | custom_components/qweather/weather.py:474-537 | Each table entry maps within its code family: 1xx sky cover, 3xx rain, 4xx snow, 5xx fog or exceptional, 9xx exceptional. |
| `Weather.ClearSkyCodes` | custom_components/qweather/weather.py:475-480 | Sunny comes only from "100" and clear night only from "150". |
| `Weather.FogBand` | custom_components/qweather/weather.py:520-533 | Every listed code from 500 to 515 is fog or exceptional. 505 and 506 have no condition. |
| `Weather.UpdateWeatherNow` | custom_components/qweather/weather.py:157-170 | A falsy observation leaves every attribute unchanged. Among the shapes modelled, it raises exactly when the observation is truthy and either not a dict or has a list or dict icon. Otherwise the condition comes from `icon`, and humidity, cloud, wind bearing, pressure, feels-like, temperature, visibility, wind speed and dew point each come from their own key. The UV index and daily forecast are untouched. |
| `Weather.WeatherNowIdempotent` | custom_components/qweather/weather.py:157-170 | Applying the same observation twice equals applying it once. Its result does not depend on the previous readings. |
| `Weather.UpdateWeatherDaily` | custom_components/qweather/weather.py:181-205 | Among the shapes modelled, it raises exactly when the input is not an iterable of dicts, or some item has a list or dict `iconDay`. Otherwise it gives one forecast per item, in order. The UV index comes from item 0 only when the list is non-empty. Nothing else changes. |
| `Weather.ForecastOf` | custom_components/qweather/weather.py:183-200 | Among the shapes modelled, one forecast entry raises exactly for a list or dict `iconDay` (float conversions are left out). Otherwise its condition comes from `iconDay`, and its date, humidity, cloud, precipitation, pressure, high, low, wind bearing, wind speed and UV index each come from their own key. |
| `Weather.MinuteTime` | custom_components/qweather/weather.py:405 | A missing `fxTime` or a value other than a string or list raises. For a string or list the result is characters (elements) 11 to 16 with Python's clamping: empty when there are at most 11, cut at the end when there are fewer than 16, so it is at most five long. |
| `Weather.MinuteOf` | custom_components/qweather/weather.py:404-408 | An entry exists exactly when its time, `type` and `precip` can be read. Its time is the sliced `fxTime`, its kind is `type` and its precipitation is `precip`. |
| `Weather.MinuteItems` | custom_components/qweather/weather.py:403-410 | Raises iff some item does. Otherwise the output has the same length and order, one entry per item. |
| `Weather.MinutelyPrecipitation` | custom_components/qweather/weather.py:400-417 | A falsy input gives no minute items and a null summary. A truthy non-dict raises. For a dict, it succeeds exactly when its `minutely` value (default `[]`) iterates as dicts and every item yields an entry. The entries are then those items' entries in order, and the summary is the dict's `summary`. |
| `Weather.MinutelyFallbackView` | custom_components/qweather/weather.py:402-411 | The precipitation wrapper's no-data value shows an empty summary and no minute items. |
| `Weather.MinuteTimeIsHourAndMinute` | custom_components/qweather/weather.py:405 | Each shown entry's time is characters 11 to 16 of the matching item's `fxTime`. |

## Left out

- The aiohttp session, the HTTP GET and `response.json()`: this is network I/O. The body the provider answered is a parameter of each call. A falsy JSON body of another type (`[]`, `""`, `0`, `false`) is rejected as empty, which the model covers as a missing body. A truthy body that is not an object, which would make `.get` raise, is not modelled.
- Logging calls: diagnostics only, with no effect on behaviour.
- The Home Assistant coordinators, listeners and entity plumbing (`sensor.py`, `binary_sensor.py`, most of `weather.py`), and the seven first refreshes that `load_init_data` runs through them. `QClient.LoadCity` models only the city-lookup step at its end.
- Concurrency between coordinators: calls are modelled one after another. `QClient.InterleavedBackoffOverridesBlock` shows one instance: the answer settled last wins.
- Clock.NextLocalMidnight: uses fixed 86400-second days in a zone with a fixed UTC offset, because daylight-saving transitions belong to the platform's time-zone database.
- Timestamps are whole seconds, while the source compares float timestamps. Sub-second parts of `datetime.now()` are dropped.
- Location.CoordinateText: a negative coordinate that rounds to zero prints as "-0.0" in Python but "0.0" here. Coordinates are taken as already rounded; `round()` on floats is not modelled.
- Weather.UpdateWeatherNow: attributes hold the raw payload values. `float_or_none`/`int_or_none` (`utils.py`) are numeric conversions that can also raise on malformed strings, and are not modelled. The `obsTime` parse in `_update_extra_weather_now`, which raises for an observation without `obsTime`, is not modelled either.
- Weather.UpdateWeatherDaily: forecast fields hold raw values for the same reason. `_update_extra_weather_daily` (indexing of required keys and float conversions of every field, either of which can raise) is not modelled.
- Weather.ForecastOf: forecast fields hold raw values, so `float_or_none` raising on a malformed field (weather.py lines 186-198) is not modelled; the entry raises only for a list or dict `iconDay`.
- Weather.MinuteOf: `precip` is kept raw, so `float(item["precip"])` raising on a malformed value is not modelled.
- `_update_extra_weather_now`: it parses `obsTime` with time-zone conversion.
- `_update_weather_hourly` and the `_update_extra_weather_hourly` summary text: they depend on float precipitation thresholds, `datetime.now()` and locale strings.
- `_update_air_now`, `_update_extra_air_now`, `_update_extra_warning_now`, `_update_extra_sun`: attribute copies with no guard beyond truthiness.
- `_update_extra_indices_1d`: the `SUGGESTIONTPYE2NAME` table it reads lives in `const.py`, which is not part of this model.
- `config_flow.py`: UI forms, a blocking `requests.get`, and float rounding of coordinates.

=== FILE: api.dfy ===
/** The second copy of the client (`api.py`). Its feed wrappers and
    classifier are the same as the integration's client; it differs in how
    the gate is written (`now < _wait_until`), in merging extra parameters
    only when they are truthy, in taking the location as ready-made text,
    and in returning the city name from `city_lookup` instead of storing
    it. */
module Api {
  import opened Wrappers
  import opened Json
  import opened Clock
  import opened Classifier
  import opened Endpoints

  datatype Client = Client(
    params: map<string, string>,  // `location` and `key`
    weatherType: string,          // "weather" or "grid-weather"
    wait: WaitUntil)              // `_wait_until`

  /** `QWeatherClient(session, api_key, location, gird_weather)`. */
  function Create(apiKey: string, location: string, grid: bool): (c: Client)
    ensures c.params == map["location" := location, "key" := apiKey]
    ensures c.wait == Finite(0)
    ensures c.weatherType == WeatherType(grid)
  {
    Client(map["location" := location, "key" := apiKey], WeatherType(grid), Finite(0))
  }

  /** `now < self._wait_until`, with every finite time below infinity. */
  predicate Before(now: int, w: WaitUntil) {
    match w
    case Infinite => true
    case Finite(t) => now < t
  }

  /** The gate of this copy. */
  predicate Gated(c: Client, now: int) {
    Before(now, c.wait)
  }

  /** `{**self.params, **extra_params} if extra_params else self.params`:
      a missing or empty mapping of extras leaves the base parameters. */
  function MergeParams(base: map<string, string>, extra: Option<map<string, string>>): (r: map<string, string>)
    ensures base.Keys <= r.Keys
    ensures extra.Some? ==> forall k :: k in extra.value ==> k in r && r[k] == extra.value[k]
    ensures forall k :: k in r && (extra.None? || k !in extra.value) ==> k in base && r[k] == base[k]
  {
    if extra.Some? && |extra.value| > 0 then base + extra.value else base
  }

  /** The call passed this copy's gate and the provider answered a
      non-empty body with code "200". */
  predicate Answered(c: Client, m: Moment, body: Option<Object>) {
    !Gated(c, m.atGate) && Present(body) && CodeOf(body) == Str("200")
  }

  datatype Exchange = Exchange(sent: Option<Request>, data: Option<Object>, client: Client)

  /** `url_get(url, extra_params)` of this copy. */
  function UrlGet(c: Client, url: string, extra: Option<map<string, string>>, m: Moment, body: Option<Object>): (x: Exchange)
    ensures Gated(c, m.atGate) ==> x == Exchange(None, None, c)
    ensures !Gated(c, m.atGate) ==> x.sent == Some(Request(url, MergeParams(c.params, extra)))
    ensures x.client == c.(wait := x.client.wait)
    ensures x.data.Some? <==> Answered(c, m, body)
    ensures x.data.Some? ==> x.data == body && x.client == c
    ensures !Present(body) ==> x.data == None && x.client == c
    ensures !Gated(c, m.atGate) && Present(body) ==>
      x.client.wait == Suspend(Classify(CodeOf(body)), c.wait, m.atReply, m.utcOffset)
  {
    if Gated(c, m.atGate) then Exchange(None, None, c)
    else
      var r := Settle(c.wait, body, m.atReply, m.utcOffset);
      Exchange(Some(Request(url, MergeParams(c.params, extra))), r.data, c.(wait := r.wait))
  }

  function ApiGet(c: Client, api: string, extra: Option<map<string, string>>, m: Moment, body: Option<Object>): (x: Exchange)
    ensures Gated(c, m.atGate) ==> x == Exchange(None, None, c)
    ensures !Gated(c, m.atGate) ==> x.sent.Some? && x.sent.value.url == DevApi + "/" + api
    ensures x.data.Some? <==> Answered(c, m, body)
  {
    UrlGet(c, DevApi + "/" + api, extra, m, body)
  }

  datatype Fetched = Fetched(value: Value, sent: Option<Request>, client: Client)

  /** The seven `update_*` wrappers of this copy. */
  function Update(c: Client, e: Endpoint, m: Moment, body: Option<Object>): (f: Fetched)
    ensures Gated(c, m.atGate) ==> f == Fetched(Fallback(e), None, c)
    ensures Answered(c, m, body) ==> f.value == Extract(e, body) && f.client == c
    ensures !Answered(c, m, body) ==> f.value == Fallback(e)
    ensures f.client == c.(wait := f.client.wait)
    ensures f.client.wait == UrlGet(c, Url(e, c.weatherType), Extra(e), m, body).client.wait
    ensures f.sent.Some? ==> f.sent.value.url == Url(e, c.weatherType)
    ensures f.sent.Some? && e != IndicesDaily ==> f.sent.value.params == c.params
    ensures f.sent.Some? && e == IndicesDaily ==>
      f.sent.value.params.Keys == c.params.Keys + {"type"} && f.sent.value.params["type"] == "0"
  {
    var x := ApiGet(c, Path(e, c.weatherType), Extra(e), m, body);
    Fetched(Extract(e, x.data), x.sent, x.client)
  }

  /** What `city_lookup` returned (or that it raised), and the client
      afterwards. */
  datatype Lookup = Lookup(name: Attempt<Value>, client: Client)

  /** `city_lookup()`: the first location's name, or the placeholder
      whenever the gate, the classifier or the `location` field yields
      nothing. */
  function CityLookup(c: Client, m: Moment, body: Option<Object>): (r: Lookup)
    ensures Gated(c, m.atGate) ==> r == Lookup(Done(Str(UnknownCity)), c)
    ensures !Present(body) ==> r == Lookup(Done(Str(UnknownCity)), c)
    ensures Present(body) && CodeOf(body) != Str("200") ==> r.name == Done(Str(UnknownCity))
    ensures Answered(c, m, body) ==> r == Lookup(CityName(body), c)
    ensures !Answered(c, m, body) ==> r.name == Done(Str(UnknownCity))
    ensures r.client == UrlGet(c, GeoUrl, Some(c.params), m, body).client
    ensures r.name.Done? && r.name.value != Str(UnknownCity) ==>
      !Gated(c, m.atGate) && Present(body) && CodeOf(body) == Str("200") && r.client == c
  {
    var x := UrlGet(c, GeoUrl, Some(c.params), m, body);
    Lookup(CityName(x.data), x.client)
  }

  /** A lookup answered with a named first location returns that name. */
  lemma NamedAnswerIsReturned(c: Client, m: Moment, name: Value)
    requires !Gated(c, m.atGate)
    ensures var body := Some(map["code" := Str("200"), "location" := Arr([Obj(map["name" := name])])]);
      CityLookup(c, m, body) == Lookup(Done(name), c)
  {
  }
}

=== FILE: classifier.dfy ===
/** The response classifier shared by both client copies: how the
    provider's status code (the string `code` inside the JSON body, not the
    HTTP status) decides whether the body is handed back and how the
    suspension deadline moves. */
module Classifier {
  import opened Wrappers
  import opened Json
  import opened Clock

  /** A positive number of seconds. */
  type Seconds = n: nat | 0 < n witness 1

  /** What a status code tells the client to do. */
  datatype Verdict =
    | Accept                 // hand the body back, keep the deadline
    | BlockForever           // `_wait_until = math.inf`
    | BlockUntilMidnight     // `_wait_until` = start of the next local day
    | Backoff(seconds: Seconds)  // `_wait_until = now + seconds`

  /** Codes that suspend the client for good: no data for the region, bad
      request, authentication failure, forbidden, not found. */
  const BlockingCodes: set<string> := {"204", "400", "401", "403", "404"}

  /** Codes that back off for one minute: rate limit and upstream error. */
  const ShortBackoffCodes: set<string> := {"429", "500"}

  const ShortBackoff: Seconds := 60
  const UnknownBackoff: Seconds := 600

  /** The `match code:` statement of `url_get`. Python's `case "200":`
      compares by equality, so a numeric code or a missing one falls to
      the default branch. */
  function Classify(code: Value): (v: Verdict)
    ensures v == Accept <==> code == Str("200")
    ensures v == BlockForever <==> code.Str? && code.s in BlockingCodes
    ensures v == BlockUntilMidnight <==> code == Str("402")
    ensures v.Backoff? ==> v.seconds == ShortBackoff || v.seconds == UnknownBackoff
    ensures !code.Str? ==> v == Backoff(UnknownBackoff)
  {
    match code
    case Str(s) =>
      (match s
       case "200" => Accept
       case "204" | "400" | "401" | "403" | "404" => BlockForever
       case "402" => BlockUntilMidnight
       case "429" | "500" => Backoff(ShortBackoff)
       case _ => Backoff(UnknownBackoff))
    case _ => Backoff(UnknownBackoff)
  }

  /** The provider's documented code table, written as data: an
      independent statement of the decision table `Classify` implements. */
  const CodeTable: map<string, Verdict> := map[
    "200" := Accept,
    "204" := BlockForever,
    "400" := BlockForever,
    "401" := BlockForever,
    "402" := BlockUntilMidnight,
    "403" := BlockForever,
    "404" := BlockForever,
    "429" := Backoff(ShortBackoff),
    "500" := Backoff(ShortBackoff)
  ]

  /** `Classify` agrees with the code table on every string, and every
      string outside the table backs off for ten minutes. */
  lemma ClassifyMatchesTable(s: string)
    ensures s in CodeTable ==> Classify(Str(s)) == CodeTable[s]
    ensures s !in CodeTable ==> Classify(Str(s)) == Backoff(UnknownBackoff)
  {
  }

  /** The new deadline a verdict sets, `now` being the clock read in the
      branch itself. */
  function Suspend(v: Verdict, w: WaitUntil, now: int, utcOffset: int): (r: WaitUntil)
    ensures v.Accept? ==> r == w
    ensures v.BlockForever? ==> r == Infinite
    ensures v.BlockUntilMidnight? ==> r.Finite? && now < r.t <= now + DaySeconds
    ensures v.Backoff? ==> r == Finite(now + v.seconds)
    ensures !v.Accept? ==> Exceeds(r, now)
  {
    match v
    case Accept => w
    case BlockForever => Infinite
    case BlockUntilMidnight => Finite(NextLocalMidnight(now, utcOffset))
    case Backoff(d) => Finite(now + d)
  }

  /** What the classifier hands back: the body or nothing, and the deadline
      after the call. */
  datatype Reply = Reply(data: Option<Object>, wait: WaitUntil)

  /** The status code carried by a present body (`json_data.get("code")`). */
  function CodeOf(body: Option<Object>): Value
    requires Present(body)
  {
    Get(body.value, "code")
  }

  /** The part of `url_get` after the response arrived: an empty body is
      rejected without touching the deadline; otherwise the code decides. */
  function Settle(w: WaitUntil, body: Option<Object>, now: int, utcOffset: int): (r: Reply)
    ensures !Present(body) ==> r == Reply(None, w)
    ensures r.data.Some? <==> Present(body) && CodeOf(body) == Str("200")
    ensures r.data.Some? ==> r.data == body && r.wait == w
    ensures r.wait != w ==> Exceeds(r.wait, now)
  {
    if !Present(body) then Reply(None, w)
    else
      var v := Classify(CodeOf(body));
      Reply(if v.Accept? then body else None, Suspend(v, w, now, utcOffset))
  }

  /** The decision table, row by row, for a present body. */
  lemma SettleTable(w: WaitUntil, body: Option<Object>, now: int, utcOffset: int)
    requires Present(body)
    ensures var r := Settle(w, body, now, utcOffset);
      && (CodeOf(body) == Str("200") ==> r == Reply(body, w))
      && (CodeOf(body).Str? && CodeOf(body).s in BlockingCodes ==> r == Reply(None, Infinite))
      && (CodeOf(body) == Str("402") ==> r == Reply(None, Finite(NextLocalMidnight(now, utcOffset))))
      && (CodeOf(body).Str? && CodeOf(body).s in ShortBackoffCodes ==> r == Reply(None, Finite(now + 60)))
      && (!CodeOf(body).Str? || CodeOf(body).s !in CodeTable ==> r == Reply(None, Finite(now + 600)))
  {
  }

  /** Blocking codes are idempotent: a second blocking response leaves the
      deadline at infinity, whatever it had been. */
  lemma BlockingIdempotent(w: WaitUntil, b1: Option<Object>, b2: Option<Object>, t1: int, t2: int, off: int)
    requires Present(b1) && Present(b2)
    requires CodeOf(b1).Str? && CodeOf(b1).s in BlockingCodes
    requires CodeOf(b2).Str? && CodeOf(b2).s in BlockingCodes
    ensures Settle(w, b1, t1, off).wait == Infinite
    ensures Settle(Settle(w, b1, t1, off).wait, b2, t2, off) == Settle(w, b1, t1, off)
  {
  }
}

=== FILE: clock.dfy ===
/** Wall-clock time as the client reads it, and the suspension deadline
    `_wait_until` that the request gate compares it with. Time is whole
    seconds since the epoch. */
module Clock {

  const DaySeconds: int := 86400

  /** `_wait_until`: a finite timestamp, or `math.inf` once the client has
      blocked itself for good. */
  datatype WaitUntil = Finite(t: int) | Infinite

  /** The clock readings one `url_get` call makes: one before the request
      (the gate), one after the response (the classifier's branches), and
      the local time zone's offset from UTC used for "next midnight". */
  datatype Moment = Moment(atGate: int, atReply: int, utcOffset: int)

  /** `w > now`, with infinity above every finite time. */
  predicate Exceeds(w: WaitUntil, now: int) {
    match w
    case Infinite => true
    case Finite(t) => t > now
  }

  /** The order on deadlines: every finite time is below infinity. */
  predicate NotLater(a: WaitUntil, b: WaitUntil) {
    match (a, b)
    case (_, Infinite) => true
    case (Infinite, Finite(_)) => false
    case (Finite(x), Finite(y)) => x <= y
  }

  /** The start of the local calendar day following `now`, as a UTC
      timestamp: the source's "today at 00:00 plus one day". Days are a
      fixed 86400 seconds in a zone with a fixed offset. */
  function NextLocalMidnight(now: int, utcOffset: int): (r: int)
    ensures now < r <= now + DaySeconds
    ensures (r + utcOffset) % DaySeconds == 0
  {
    var local := now + utcOffset;
    (local / DaySeconds + 1) * DaySeconds - utcOffset
  }

  /** No local midnight lies strictly between `now` and the one returned:
      the result is the earliest local midnight after `now`. */
  lemma NextLocalMidnightIsEarliest(now: int, utcOffset: int, m: int)
    requires now < m
    requires (m + utcOffset) % DaySeconds == 0
    ensures NextLocalMidnight(now, utcOffset) <= m
  {
    var local := now + utcOffset;
    var k := local / DaySeconds;
    var j := (m + utcOffset) / DaySeconds;
    assert m + utcOffset == j * DaySeconds;
    assert k * DaySeconds <= local;
    assert k * DaySeconds < j * DaySeconds;
    assert k < j;
    assert (k + 1) * DaySeconds <= j * DaySeconds;
  }
}

=== FILE: endpoints.dfy ===
/** The seven data feeds the client polls, and the city lookup: which URL
    and extra query parameters each uses, and how each turns what `url_get`
    handed back into the value the caller receives. Both client copies
    share these definitions; they differ only in `url_get` itself. */
module Endpoints {
  import opened Wrappers
  import opened Json

  datatype Endpoint =
    | Observation            // update_observation
    | DailyForecast          // update_daily_forecast
    | HourlyForecast         // update_hourly_forecast
    | AirNow                 // update_air_now
    | MinutelyPrecipitation  // update_minutely_precipitation
    | WarningNow             // update_warning_now
    | IndicesDaily           // update_indices_1d

  /** An HTTP GET the client sends: URL and query parameters. */
  datatype Request = Request(url: string, params: map<string, string>)

  const DevApi: string := "https://devapi.qweather.com/v7"
  const GeoUrl: string := "https://geoapi.qweather.com/v2/city/lookup"

  /** The placeholder city name ("unknown"). */
  const UnknownCity: string := "未知"

  /** The path prefix of the weather feeds: grid or city weather. */
  function WeatherType(grid: bool): string {
    if grid then "grid-weather" else "weather"
  }

  /** The `api` argument each wrapper passes to `api_get`. */
  function Path(e: Endpoint, weatherType: string): string {
    match e
    case Observation => weatherType + "/now"
    case DailyForecast => weatherType + "/7d"
    case HourlyForecast => weatherType + "/24h"
    case AirNow => "air/now"
    case MinutelyPrecipitation => "minutely/5m"
    case WarningNow => "warning/now"
    case IndicesDaily => "indices/1d"
  }

  /** `api_get`: the full URL of a feed. */
  function Url(e: Endpoint, weatherType: string): string {
    DevApi + "/" + Path(e, weatherType)
  }

  /** The extra query parameters a wrapper passes: only the indices feed
      asks for every index type. */
  function Extra(e: Endpoint): (r: Option<map<string, string>>)
    ensures r.Some? <==> e == IndicesDaily
  {
    if e == IndicesDaily then Some(map["type" := "0"]) else None
  }

  /** The feeds whose declared result is a list. */
  predicate ListValued(e: Endpoint) {
    e in {DailyForecast, HourlyForecast, WarningNow, IndicesDaily}
  }

  /** The fixed value a wrapper returns when `url_get` gave nothing. */
  function Fallback(e: Endpoint): Value {
    match e
    case Observation => Null
    case AirNow => Null
    case MinutelyPrecipitation => Obj(map["summary" := Str(""), "minutely" := Arr([])])
    case _ => Arr([])
  }

  /** The wrapper body after `api_get`: the payload field of a body that
      came back, or the fixed fallback when none did. Daily forecast,
      warnings and the precipitation fields use `.get(k, default)`; the
      hourly forecast, indices, observation and air use `.get(k)`. */
  function Extract(e: Endpoint, data: Option<Object>): (r: Value)
    ensures !Present(data) ==> r == Fallback(e)
  {
    if !Present(data) then Fallback(e)
    else
      var d := data.value;
      match e
      case Observation => Get(d, "now")
      case DailyForecast => GetOr(d, "daily", Arr([]))
      case HourlyForecast => Get(d, "hourly")
      case AirNow => Get(d, "now")
      case MinutelyPrecipitation =>
        Obj(map["summary" := GetOr(d, "summary", Str("")), "minutely" := GetOr(d, "minutely", Arr([]))])
      case WarningNow => GetOr(d, "warning", Arr([]))
      case IndicesDaily => Get(d, "daily")
  }

  /** Without data every wrapper yields its fixed empty value: `[]` for
      the list feeds, None for observation and air, and an empty summary
      with an empty minute list for precipitation. No caller can tell a
      gated call from a rejected one by the value. */
  lemma NoDataFallbacks(e: Endpoint, data: Option<Object>)
    requires !Present(data)
    ensures ListValued(e) ==> Extract(e, data) == Arr([])
    ensures e in {Observation, AirNow} ==> Extract(e, data) == Null
    ensures e == MinutelyPrecipitation ==>
      Extract(e, data).Obj? && Extract(e, data).fields == map["summary" := Str(""), "minutely" := Arr([])]
  {
  }

  /** With data, the payload is handed over unmodified. Daily forecast and
      warnings default to `[]` only when the key is absent: a key present
      with null yields null. */
  lemma DefaultedListFeeds(e: Endpoint, d: Object, key: string)
    requires |d| > 0
    requires (e == DailyForecast && key == "daily") || (e == WarningNow && key == "warning")
    ensures key !in d ==> Extract(e, Some(d)) == Arr([])
    ensures key in d ==> Extract(e, Some(d)) == d[key]
  {
  }

  /** With data, the feeds read without a default hand over their key's
      value unmodified, or null when the key is missing: the observation
      and air under `now`, the hourly forecast under `hourly`, the indices
      under `daily`. The hourly and indices feeds therefore yield null for
      a body lacking their key although their declared result is a list.
      The precipitation feed copies `summary` (default "") and `minutely`
      (default `[]`). */
  lemma PayloadPassedThrough(e: Endpoint, d: Object)
    requires |d| > 0
    ensures e in {Observation, AirNow} && "now" in d ==> Extract(e, Some(d)) == d["now"]
    ensures e in {Observation, AirNow} && "now" !in d ==> Extract(e, Some(d)) == Null
    ensures e == HourlyForecast && "hourly" in d ==> Extract(e, Some(d)) == d["hourly"]
    ensures e == HourlyForecast && "hourly" !in d ==> Extract(e, Some(d)) == Null
    ensures e == IndicesDaily && "daily" in d ==> Extract(e, Some(d)) == d["daily"]
    ensures e == IndicesDaily && "daily" !in d ==> Extract(e, Some(d)) == Null
    ensures e == MinutelyPrecipitation ==>
      var f := Extract(e, Some(d)).fields;
      && f["summary"] == (if "summary" in d then d["summary"] else Str(""))
      && f["minutely"] == (if "minutely" in d then d["minutely"] else Arr([]))
  {
    MinutelyShape(Some(d));
  }

  /** The precipitation feed always yields an object with exactly the two
      keys `summary` and `minutely`, data or not. */
  lemma MinutelyShape(data: Option<Object>)
    ensures Extract(MinutelyPrecipitation, data).Obj?
    ensures Extract(MinutelyPrecipitation, data).fields.Keys == {"summary", "minutely"}
  {
  }

  /** A list whose first entry is an object (`locations[0].get` works). */
  predicate FirstIsObject(locations: Value) {
    locations.Arr? && |locations.items| > 0 && locations.items[0].Obj?
  }

  /** `city_lookup` after `url_get`: the first location's `name` (or the
      placeholder when that entry has none); the placeholder when nothing
      came back or the `location` field is missing or empty. A truthy
      `location` that is not a list of objects makes `locations[0]` or its
      `.get` raise. */
  function CityName(data: Option<Object>): (r: Attempt<Value>)
    ensures !Present(data) ==> r == Done(Str(UnknownCity))
    ensures Present(data) && !Truthy(Get(data.value, "location")) ==> r == Done(Str(UnknownCity))
    ensures r.Raised? <==>
      Present(data) && Truthy(Get(data.value, "location"))
      && !(Get(data.value, "location").Arr? && Get(data.value, "location").items[0].Obj?)
    ensures Present(data) && FirstIsObject(Get(data.value, "location")) ==>
      var first := Get(data.value, "location").items[0].fields;
      r == Done(if "name" in first then first["name"] else Str(UnknownCity))
    ensures r.Done? && r.value != Str(UnknownCity) ==>
      Present(data) && "location" in data.value && data.value["location"].Arr?
      && |data.value["location"].items| > 0
      && data.value["location"].items[0].Obj?
      && "name" in data.value["location"].items[0].fields
      && r.value == data.value["location"].items[0].fields["name"]
  {
    if !Present(data) then Done(Str(UnknownCity))
    else
      var locations := Get(data.value, "location");
      if !Truthy(locations) then Done(Str(UnknownCity))
      else if locations.Arr? && locations.items[0].Obj? then
        Done(GetOr(locations.items[0].fields, "name", Str(UnknownCity)))
      else Raised
  }

  /** Each feed is fetched from its own URL. */
  lemma UrlsDistinct(e1: Endpoint, e2: Endpoint, grid: bool)
    requires e1 != e2
    ensures Url(e1, WeatherType(grid)) != Url(e2, WeatherType(grid))
  {
    var wt := WeatherType(grid);
    var p1, p2 := Path(e1, wt), Path(e2, wt);
    assert (|p1|, p1[1], p1[|p1| - 1]) != (|p2|, p2[1], p2[|p2| - 1]);
    PrefixCancels(DevApi + "/", p1, p2);
  }

  lemma PrefixCancels(a: string, x: string, y: string)
    ensures a + x == a + y ==> x == y
  {
    if a + x == a + y {
      assert x == (a + x)[|a|..];
    }
  }
}

=== FILE: equivalence.dfy ===
/** The two client copies side by side: their differences in spelling
    (the gate's comparison, the merge of extra parameters, where the
    location text comes from) do not change what they do. */
module Equivalence {
  import opened Wrappers
  import opened Json
  import opened Clock
  import opened Endpoints
  import opened Location
  import QClient
  import Api

  /** `_wait_until > now` and `now < _wait_until` shut the gate at the
      same instants. */
  lemma GatesAgree(w: WaitUntil, now: int)
    ensures Exceeds(w, now) <==> Api.Before(now, w)
  {
  }

  /** Merging on `extra_params is None` and merging on its truthiness give
      the same parameters: an empty mapping of extras adds nothing. */
  lemma MergesAgree(base: map<string, string>, extra: Option<map<string, string>>)
    ensures QClient.MergeParams(base, extra) == Api.MergeParams(base, extra)
  {
    if extra.Some? && |extra.value| == 0 {
      assert extra.value == map[];
      assert base + extra.value == base;
    }
  }

  /** The same client state seen by both copies. */
  function AsApi(c: QClient.Client): (a: Api.Client)
    ensures a.params == c.params && a.weatherType == c.weatherType && a.wait == c.wait
  {
    Api.Client(c.params, c.weatherType, c.wait)
  }

  /** The client the integration builds from two coordinates is the
      `api.py` client given their `location` text. */
  lemma CreateAgrees(apiKey: string, longitude: Hundredths, latitude: Hundredths, grid: bool)
    ensures AsApi(QClient.Create(apiKey, longitude, latitude, grid))
         == Api.Create(apiKey, LocationText(longitude, latitude), grid)
  {
  }

  /** Both copies answer every feed call alike: same value, same request,
      same deadline afterwards. */
  lemma UpdatesAgree(c: QClient.Client, e: Endpoint, m: Moment, body: Option<Object>)
    ensures var f := QClient.Update(c, e, m, body);
            var g := Api.Update(AsApi(c), e, m, body);
      && f.value == g.value && f.sent == g.sent && AsApi(f.client) == g.client
  {
    GatesAgree(c.wait, m.atGate);
    MergesAgree(c.params, Extra(e));
  }

  /** The city the integration stores while loading is the name
      `city_lookup` returns, when it starts from the placeholder. */
  lemma CityAgrees(c: QClient.Client, m: Moment, body: Option<Object>)
    requires c.city == Str(UnknownCity)
    ensures var r := QClient.LoadCity(c, m, body);
            var l := Api.CityLookup(AsApi(c), m, body);
      && (r.Raised? <==> l.name.Raised?)
      && (r.Done? ==> Done(r.value.city) == l.name && AsApi(r.value) == l.client)
  {
    GatesAgree(c.wait, m.atGate);
    MergesAgree(c.params, Some(c.params));
  }
}

=== FILE: json.dfy ===
/** Decoded JSON values as the client sees them after `response.json()`,
    together with the few pieces of Python dict and list behaviour the
    client relies on: truthiness, `dict.get`, iteration and slicing. */
module Json {
  import opened Wrappers

  datatype Value =
    | Null
    | Bool(b: bool)
    | Num(n: real)
    | Str(s: string)
    | Arr(items: seq<Value>)
    | Obj(fields: map<string, Value>)

  /** A decoded JSON object (a Python dict with string keys). */
  type Object = map<string, Value>

  /** Python's truth value of a decoded JSON value (`if v:`). */
  predicate Truthy(v: Value) {
    match v
    case Null => false
    case Bool(b) => b
    case Num(n) => n != 0.0
    case Str(s) => |s| > 0
    case Arr(xs) => |xs| > 0
    case Obj(m) => |m| > 0
  }

  /** `if d:` for a dict that may be None: present and non-empty. */
  predicate Present(d: Option<Object>) {
    d.Some? && |d.value| > 0
  }

  /** `d.get(key)`: the stored value, or None (JSON null) when absent. */
  function Get(d: Object, key: string): Value {
    if key in d then d[key] else Null
  }

  /** `d.get(key, default)`: the default is used only when the key is
      absent, never when the key is present with a null value. */
  function GetOr(d: Object, key: string, default: Value): Value {
    if key in d then d[key] else default
  }

  /** `for x in v` where the loop body indexes `x` as a dict (`x.get(..)`
      or `x[..]`). Lists yield their elements, which must all be objects;
      an empty string or dict yields nothing; a non-empty string or dict
      yields strings, which have no `.get`; null, numbers and booleans are
      not iterable. */
  function AsObjects(v: Value): (r: Attempt<seq<Object>>)
    ensures v.Arr? ==> (r.Done? <==> forall i :: 0 <= i < |v.items| ==> v.items[i].Obj?)
    ensures r.Done? ==> |r.value| == (if v.Arr? then |v.items| else 0)
    ensures r.Done? && v.Arr? ==> forall i :: 0 <= i < |r.value| ==> v.items[i] == Obj(r.value[i])
    ensures (v.Null? || v.Bool? || v.Num?) ==> r.Raised?
    ensures (v.Str? || v.Obj?) ==> (r.Done? <==> !Truthy(v))
  {
    match v
    case Arr(xs) =>
      if forall i :: 0 <= i < |xs| ==> xs[i].Obj? then
        Done(seq(|xs|, i requires 0 <= i < |xs| => xs[i].fields))
      else
        Raised
    case Str(s) => if s == "" then Done([]) else Raised
    case Obj(m) => if |m| == 0 then Done([]) else Raised
    case _ => Raised
  }

  /** Python slicing `s[lo:hi]` for non-negative bounds: both bounds are
      clamped to the length, and an inverted range is empty. */
  function Slice<T>(s: seq<T>, lo: nat, hi: nat): (r: seq<T>)
    ensures lo <= hi ==> |r| <= hi - lo
    ensures hi <= |s| && lo <= hi ==> r == s[lo..hi]
    ensures |s| <= lo ==> r == []
    ensures lo <= |s| && lo <= hi ==> r == s[lo..if hi < |s| then hi else |s|]
  {
    var h := if hi < |s| then hi else |s|;
    if lo < h then s[lo..h] else []
  }
}

=== FILE: location.dfy ===
/** The `location` query parameter. The integration rounds longitude and
    latitude to two decimals and the client renders them as
    `f"{longitude},{latitude}"`. A coordinate is modelled as a whole number
    of hundredths of a degree, and its text as Python prints such a float:
    optional minus sign, integer part, a dot, then one or two decimals with
    a trailing zero dropped ("116.4", "39.0", "116.41"). */
module Location {
  import opened Wrappers

  /** A coordinate in hundredths of a degree. */
  type Hundredths = int

  function DigitChar(d: nat): char
    requires d < 10
  {
    ('0' as int + d) as char
  }

  predicate IsDigit(c: char) {
    '0' <= c <= '9'
  }

  function DigitValue(c: char): nat
    requires IsDigit(c)
  {
    (c - '0') as nat
  }

  predicate AllDigits(s: string) {
    forall i :: 0 <= i < |s| ==> IsDigit(s[i])
  }

  /** Decimal text of a natural number, most significant digit first. */
  function NatText(n: nat): (r: string)
    ensures |r| > 0 && AllDigits(r)
  {
    if n < 10 then [DigitChar(n)] else NatText(n / 10) + [DigitChar(n % 10)]
  }

  /** The value of a string of decimal digits. */
  function DigitsValue(s: string): nat
    requires AllDigits(s)
  {
    if |s| == 0 then 0 else 10 * DigitsValue(s[..|s| - 1]) + DigitValue(s[|s| - 1])
  }

  lemma {:induction false} NatTextRoundTrip(n: nat)
    ensures DigitsValue(NatText(n)) == n
  {
    if n >= 10 {
      NatTextRoundTrip(n / 10);
      var s := NatText(n);
      assert s[..|s| - 1] == NatText(n / 10);
    }
  }

  /** The decimals of a rounded coordinate: two digits, or one when the
      second would be zero. */
  function FractionText(f: nat): (r: string)
    requires f < 100
    ensures 1 <= |r| <= 2 && AllDigits(r)
  {
    if f % 10 == 0 then [DigitChar(f / 10)] else [DigitChar(f / 10), DigitChar(f % 10)]
  }

  /** How a coordinate's magnitude is printed. */
  function UnsignedText(a: nat): (r: string)
    ensures |r| > 0 && IsDigit(r[0])
  {
    NatText(a / 100) + "." + FractionText(a % 100)
  }

  /** How one coordinate is printed. */
  function CoordinateText(h: Hundredths): string
  {
    if h < 0 then "-" + UnsignedText(-h) else UnsignedText(h)
  }

  /** `f"{longitude},{latitude}"` */
  function LocationText(longitude: Hundredths, latitude: Hundredths): string {
    CoordinateText(longitude) + "," + CoordinateText(latitude)
  }

  lemma CoordinateHasNoComma(h: Hundredths)
    ensures ',' !in CoordinateText(h)
  {
    var a: nat := if h < 0 then -h else h;
    var whole, frac := NatText(a / 100), FractionText(a % 100);
    var u := whole + "." + frac;
    assert UnsignedText(a) == u;
    assert forall i :: 0 <= i < |u| ==> u[i] != ',' by {
      forall i | 0 <= i < |u|
        ensures u[i] != ','
      {
        if i < |whole| {
          assert u[i] == whole[i];
        } else if i > |whole| {
          assert u[i] == frac[i - |whole| - 1];
        }
      }
    }
    if h < 0 {
      assert CoordinateText(h) == "-" + u;
    } else {
      assert CoordinateText(h) == u;
    }
  }

  /** The position of the first occurrence of `c` in `s`. */
  function IndexOf(s: string, c: char): (r: Option<nat>)
    ensures r.Some? ==> r.value < |s| && s[r.value] == c && c !in s[..r.value]
    ensures r.None? <==> c !in s
  {
    if |s| == 0 then None
    else if s[0] == c then Some(0)
    else match IndexOf(s[1..], c)
      case None => None
      case Some(i) =>
        assert s[..i + 1] == [s[0]] + s[1..][..i];
        Some(i + 1)
  }

  /** Reads an unsigned coordinate: digits, a dot, one or two digits. */
  function ParseUnsigned(s: string): Option<nat> {
    match IndexOf(s, '.')
    case None => None
    case Some(i) =>
      var whole, frac := s[..i], s[i + 1..];
      if |whole| == 0 || !AllDigits(whole) || !(1 <= |frac| <= 2) || !AllDigits(frac) then None
      else
        var cents := if |frac| == 1 then 10 * DigitsValue(frac) else DigitsValue(frac);
        Some(100 * DigitsValue(whole) + cents)
  }

  /** Reads a coordinate back from its text: the inverse of
      `CoordinateText`. */
  function ParseCoordinate(s: string): Option<Hundredths> {
    if |s| > 0 && s[0] == '-' then
      match ParseUnsigned(s[1..])
      case None => None
      case Some(a) => var r: Hundredths := -(a as int); Some(r)
    else
      match ParseUnsigned(s)
      case None => None
      case Some(a) => Some(a)
  }

  /** Reads both coordinates back from a `location` parameter. */
  function ParseLocation(s: string): Option<(Hundredths, Hundredths)> {
    match IndexOf(s, ',')
    case None => None
    case Some(i) =>
      match (ParseCoordinate(s[..i]), ParseCoordinate(s[i + 1..]))
      case (Some(lon), Some(lat)) => Some((lon, lat))
      case _ => None
  }

  lemma FractionRoundTrip(f: nat)
    requires f < 100
    ensures var t := FractionText(f);
      (if |t| == 1 then 10 * DigitsValue(t) else DigitsValue(t)) == f
  {
    var t := FractionText(f);
    if f % 10 == 0 {
      assert t[..0] == [];
    } else {
      assert t[..1] == [DigitChar(f / 10)];
      assert t[..1][..0] == [];
      assert DigitsValue(t[..1]) == f / 10;
      assert DigitsValue(t) == 10 * (f / 10) + f % 10;
    }
  }

  lemma UnsignedRoundTrip(a: nat)
    ensures ParseUnsigned(UnsignedText(a)) == Some(a)
  {
    var whole, frac := NatText(a / 100), FractionText(a % 100);
    var body := whole + "." + frac;
    assert !IsDigit('.');
    assert '.' !in whole;
    IndexOfAfter(whole, '.', frac);
    assert body[..|whole|] == whole;
    assert body[|whole| + 1..] == frac;
    NatTextRoundTrip(a / 100);
    FractionRoundTrip(a % 100);
  }

  lemma {:induction false} IndexOfAfter(p: string, c: char, rest: string)
    requires c !in p
    ensures IndexOf(p + [c] + rest, c) == Some(|p|)
  {
    if |p| > 0 {
      assert (p + [c] + rest)[1..] == p[1..] + [c] + rest;
      IndexOfAfter(p[1..], c, rest);
    }
  }

  /** Every coordinate prints to text that reads back as the same
      coordinate. */
  lemma NegativeRoundTrip(a: nat)
    ensures ParseCoordinate("-" + UnsignedText(a)) == Some(-(a as int))
  {
    var body := UnsignedText(a);
    var s := "-" + body;
    assert s[0] == '-';
    assert s[1..] == body;
    UnsignedRoundTrip(a);
  }

  lemma CoordinateRoundTrip(h: Hundredths)
    ensures ParseCoordinate(CoordinateText(h)) == Some(h)
  {
    if h < 0 {
      var a: nat := -h;
      assert CoordinateText(h) == "-" + UnsignedText(a);
      NegativeRoundTrip(a);
    } else {
      UnsignedRoundTrip(h);
      assert UnsignedText(h)[0] != '-';
    }
  }

  /** The location parameter built from two coordinates reads back as
      those two coordinates. */
  lemma LocationRoundTrip(longitude: Hundredths, latitude: Hundredths)
    ensures ParseLocation(LocationText(longitude, latitude)) == Some((longitude, latitude))
  {
    var lon, lat := CoordinateText(longitude), CoordinateText(latitude);
    var s := LocationText(longitude, latitude);
    CoordinateHasNoComma(longitude);
    IndexOfAfter(lon, ',', lat);
    assert s == lon + [','] + lat;
    assert s[..|lon|] == lon;
    assert s[|lon| + 1..] == lat;
    CoordinateRoundTrip(longitude);
    CoordinateRoundTrip(latitude);
  }
}

=== FILE: q_client.dfy ===
/** The client the integration runs (`core/q_client.py`): its request gate
    `_wait_until > now`, its `url_get`, the seven feed wrappers and the
    city lookup done while loading. Each call is a pure function from the
    client before the call, the clock readings and the body the provider
    answered to the request, to the value returned and the client after. */
module QClient {
  import opened Wrappers
  import opened Json
  import opened Clock
  import opened Classifier
  import opened Endpoints
  import opened Location

  datatype Client = Client(
    params: map<string, string>,  // `location` and `key`
    weatherType: string,          // "weather" or "grid-weather"
    wait: WaitUntil,              // `_wait_until`
    city: Value)                  // `city`

  /** `QWeatherClient(...)`: the location parameter is built from the two
      rounded coordinates; nothing is suspended yet. */
  function Create(apiKey: string, longitude: Hundredths, latitude: Hundredths, grid: bool): (c: Client)
    ensures c.params.Keys == {"location", "key"} && c.params["key"] == apiKey
    ensures ParseLocation(c.params["location"]) == Some((longitude, latitude))
    ensures c.wait == Finite(0) && c.city == Str(UnknownCity)
    ensures c.weatherType == WeatherType(grid)
  {
    LocationRoundTrip(longitude, latitude);
    Client(map["location" := LocationText(longitude, latitude), "key" := apiKey],
           WeatherType(grid), Finite(0), Str(UnknownCity))
  }

  /** The gate: `self._wait_until > now`. */
  predicate Gated(c: Client, now: int) {
    Exceeds(c.wait, now)
  }

  /** `self.params if extra_params is None else {**self.params, **extra_params}`:
      the extra parameters win on shared keys; the base keys stay. */
  function MergeParams(base: map<string, string>, extra: Option<map<string, string>>): (r: map<string, string>)
    ensures base.Keys <= r.Keys
    ensures r.Keys == base.Keys + (if extra.Some? then extra.value.Keys else {})
    ensures extra.Some? ==> forall k :: k in extra.value ==> r[k] == extra.value[k]
    ensures forall k :: k in base && (extra.None? || k !in extra.value) ==> r[k] == base[k]
  {
    if extra.None? then base else base + extra.value
  }

  /** The call passed the gate and the provider answered a non-empty body
      with code "200": the only case in which `url_get` returns data. */
  predicate Answered(c: Client, m: Moment, body: Option<Object>) {
    !Gated(c, m.atGate) && Present(body) && CodeOf(body) == Str("200")
  }

  /** What one `url_get` call did: the request it sent (none when gated),
      the body it handed back, and the client afterwards. */
  datatype Exchange = Exchange(sent: Option<Request>, data: Option<Object>, client: Client)

  /** `url_get(url, extra_params)`. A gated call sends nothing, returns
      nothing and changes nothing; otherwise `body` is the provider's
      answer to the request sent, and the classifier decides. */
  function UrlGet(c: Client, url: string, extra: Option<map<string, string>>, m: Moment, body: Option<Object>): (x: Exchange)
    ensures Gated(c, m.atGate) ==> x == Exchange(None, None, c)
    ensures !Gated(c, m.atGate) ==> x.sent == Some(Request(url, MergeParams(c.params, extra)))
    ensures x.client == c.(wait := x.client.wait)
    ensures x.data.Some? <==> Answered(c, m, body)
    ensures x.data.Some? ==> x.data == body && x.client == c
    ensures !Gated(c, m.atGate) && Present(body) ==>
      x.client.wait == Suspend(Classify(CodeOf(body)), c.wait, m.atReply, m.utcOffset)
    ensures x.client.wait != c.wait ==> Exceeds(x.client.wait, m.atReply)
  {
    if Gated(c, m.atGate) then Exchange(None, None, c)
    else
      var r := Settle(c.wait, body, m.atReply, m.utcOffset);
      Exchange(Some(Request(url, MergeParams(c.params, extra))), r.data, c.(wait := r.wait))
  }

  /** `api_get(api, extra_params)`: `url_get` below the v7 API root. */
  function ApiGet(c: Client, api: string, extra: Option<map<string, string>>, m: Moment, body: Option<Object>): (x: Exchange)
    ensures Gated(c, m.atGate) ==> x == Exchange(None, None, c)
    ensures !Gated(c, m.atGate) ==> x.sent.Some? && x.sent.value.url == DevApi + "/" + api
    ensures x.data.Some? <==> Answered(c, m, body)
  {
    UrlGet(c, DevApi + "/" + api, extra, m, body)
  }

  /** What a feed wrapper returned, the request behind it, and the client
      afterwards. */
  datatype Fetched = Fetched(value: Value, sent: Option<Request>, client: Client)

  /** The seven `update_*` wrappers. */
  function Update(c: Client, e: Endpoint, m: Moment, body: Option<Object>): (f: Fetched)
    ensures Gated(c, m.atGate) ==> f == Fetched(Fallback(e), None, c)
    ensures Answered(c, m, body) ==> f.value == Extract(e, body) && f.client == c
    ensures !Answered(c, m, body) ==> f.value == Fallback(e)
    ensures f.client == c.(wait := f.client.wait)
    ensures f.client.wait == UrlGet(c, Url(e, c.weatherType), Extra(e), m, body).client.wait
    ensures f.sent.Some? ==> f.sent.value.url == Url(e, c.weatherType)
    ensures f.sent.Some? && e != IndicesDaily ==> f.sent.value.params == c.params
    ensures f.sent.Some? && e == IndicesDaily ==>
      f.sent.value.params.Keys == c.params.Keys + {"type"} && f.sent.value.params["type"] == "0"
  {
    var x := ApiGet(c, Path(e, c.weatherType), Extra(e), m, body);
    Fetched(Extract(e, x.data), x.sent, x.client)
  }

  /** The city lookup at the end of `load_init_data`: `url_get` on the
      geocoding endpoint with the client's own parameters as extras; the
      city is overwritten only when a non-empty `location` field came back.
      A malformed `location` raises. */
  function LoadCity(c: Client, m: Moment, body: Option<Object>): (r: Attempt<Client>)
    ensures Gated(c, m.atGate) ==> r == Done(c)
    ensures r.Done? ==> r.value.params == c.params && r.value.weatherType == c.weatherType
    ensures r.Done? ==> r.value.wait == UrlGet(c, GeoUrl, Some(c.params), m, body).client.wait
    ensures !Answered(c, m, body) ==> r.Done? && r.value.city == c.city
    ensures Answered(c, m, body) && !Truthy(Get(body.value, "location")) ==> r == Done(c)
    ensures Answered(c, m, body) && FirstIsObject(Get(body.value, "location")) ==>
      var first := Get(body.value, "location").items[0].fields;
      r == Done(c.(city := if "name" in first then first["name"] else Str(UnknownCity)))
    ensures r.Raised? <==>
      Answered(c, m, body) && Truthy(Get(body.value, "location")) && !FirstIsObject(Get(body.value, "location"))
    ensures r.Done? && r.value.city != c.city ==>
      Answered(c, m, body) && CityName(body) == Done(r.value.city)
  {
    var x := UrlGet(c, GeoUrl, Some(c.params), m, body);
    if Present(x.data) && Truthy(Get(x.data.value, "location")) then
      match CityName(x.data)
      case Done(name) => Done(x.client.(city := name))
      case Raised => Raised
    else
      Done(x.client)
  }

  /** A sequence of feed calls made one after another. */
  datatype Step = Step(endpoint: Endpoint, moment: Moment, body: Option<Object>)

  /** Runs the steps in order, each on the client the previous one left. */
  function Run(c: Client, steps: seq<Step>): (trace: seq<Fetched>)
    ensures |trace| == |steps|
    decreases |steps|
  {
    if |steps| == 0 then []
    else
      var f := Update(c, steps[0].endpoint, steps[0].moment, steps[0].body);
      [f] + Run(f.client, steps[1..])
  }

  /** The client after the steps. */
  function After(c: Client, steps: seq<Step>): Client
    decreases |steps|
  {
    if |steps| == 0 then c
    else After(Update(c, steps[0].endpoint, steps[0].moment, steps[0].body).client, steps[1..])
  }

  /** `After` is the client the last step of `Run` leaves. */
  lemma {:induction false} AfterIsLastOfRun(c: Client, steps: seq<Step>)
    requires |steps| > 0
    ensures After(c, steps) == Run(c, steps)[|steps| - 1].client
    decreases |steps|
  {
    var f := Update(c, steps[0].endpoint, steps[0].moment, steps[0].body);
    if |steps| > 1 {
      AfterIsLastOfRun(f.client, steps[1..]);
    }
  }

  /** A call that passed the gate and got any answer but a success yields
      the feed's fallback, and the gate is shut when the answer arrives. */
  lemma RejectedCallFallsBack(c: Client, e: Endpoint, m: Moment, body: Option<Object>)
    requires !Gated(c, m.atGate) && Present(body) && CodeOf(body) != Str("200")
    ensures Update(c, e, m, body).value == Fallback(e)
    ensures Gated(Update(c, e, m, body).client, m.atReply)
  {
  }

  /** A lookup answered with a named first location stores that name. */
  lemma NamedAnswerSetsCity(c: Client, m: Moment, name: Value)
    requires !Gated(c, m.atGate)
    ensures var body := Some(map["code" := Str("200"), "location" := Arr([Obj(map["name" := name])])]);
      LoadCity(c, m, body) == Done(c.(city := name))
  {
  }

  /** Once `_wait_until` is infinite every later call is gated: nothing is
      sent, every wrapper yields its fallback, and the client never
      changes again. */
  lemma {:induction false} BlockedForever(c: Client, steps: seq<Step>)
    requires c.wait == Infinite
    ensures After(c, steps) == c
    ensures forall i :: 0 <= i < |steps| ==>
      Run(c, steps)[i] == Fetched(Fallback(steps[i].endpoint), None, c)
    decreases |steps|
  {
    if |steps| > 0 {
      BlockedForever(c, steps[1..]);
      var trace := Run(c, steps);
      assert trace == [Fetched(Fallback(steps[0].endpoint), None, c)] + Run(c, steps[1..]);
      forall i | 0 <= i < |steps|
        ensures trace[i] == Fetched(Fallback(steps[i].endpoint), None, c)
      {
        if i > 0 {
          assert trace[i] == Run(c, steps[1..])[i - 1];
          assert steps[1..][i - 1] == steps[i];
        }
      }
    }
  }

  /** One call never moves the deadline earlier, provided the clock does
      not run backwards during the call. */
  lemma UpdateNeverMovesBack(c: Client, e: Endpoint, m: Moment, body: Option<Object>)
    requires m.atGate <= m.atReply
    ensures NotLater(c.wait, Update(c, e, m, body).client.wait)
  {
    var w' := Update(c, e, m, body).client.wait;
    if !Gated(c, m.atGate) && w' != c.wait {
      assert Exceeds(w', m.atReply);
    }
  }

  /** Over any sequence of calls the deadline only moves later: a
      suspension is never shortened. */
  lemma {:induction false} DeadlineMonotone(c: Client, steps: seq<Step>)
    requires forall i :: 0 <= i < |steps| ==> steps[i].moment.atGate <= steps[i].moment.atReply
    ensures NotLater(c.wait, After(c, steps).wait)
    decreases |steps|
  {
    if |steps| > 0 {
      var s := steps[0];
      var c' := Update(c, s.endpoint, s.moment, s.body).client;
      UpdateNeverMovesBack(c, s.endpoint, s.moment, s.body);
      assert forall i :: 0 <= i < |steps[1..]| ==> steps[1..][i] == steps[i + 1];
      DeadlineMonotone(c', steps[1..]);
    }
  }

  /** How long the gate stays shut after a call that passed it, by the
      code the provider answered: a success leaves it open at the same
      instant; a blocking code shuts it for good; 402 until the next local
      midnight; 429 and 500 for a minute; anything else for ten. */
  lemma GateAfterCall(c: Client, url: string, extra: Option<map<string, string>>, m: Moment, body: Option<Object>, t: int)
    requires !Gated(c, m.atGate)
    requires Present(body)
    ensures var c' := UrlGet(c, url, extra, m, body).client;
      && (CodeOf(body) == Str("200") ==> !Gated(c', m.atGate))
      && (CodeOf(body).Str? && CodeOf(body).s in BlockingCodes ==> Gated(c', t))
      && (CodeOf(body) == Str("402") ==> (Gated(c', t) <==> t < NextLocalMidnight(m.atReply, m.utcOffset)))
      && (CodeOf(body).Str? && CodeOf(body).s in ShortBackoffCodes ==> (Gated(c', t) <==> t < m.atReply + 60))
      && (!CodeOf(body).Str? || CodeOf(body).s !in CodeTable ==> (Gated(c', t) <==> t < m.atReply + 600))
  {
    SettleTable(c.wait, body, m.atReply, m.utcOffset);
    ClassifyMatchesTable(if CodeOf(body).Str? then CodeOf(body).s else "");
  }

  /** An empty or missing body is rejected without suspending. */
  lemma EmptyBodyKeepsState(c: Client, url: string, extra: Option<map<string, string>>, m: Moment, body: Option<Object>)
    requires !Present(body)
    ensures UrlGet(c, url, extra, m, body).data == None
    ensures UrlGet(c, url, extra, m, body).client == c
  {
  }

  /** Two calls that passed the gate before either answered (the event
      loop interleaves them while both await the network): a blocking
      answer settled first is overwritten by a backoff settled second, so
      the permanent suspension is lost. */
  lemma InterleavedBackoffOverridesBlock(w: WaitUntil, first: Object, second: Object, t1: int, t2: int, off: int)
    requires |first| > 0 && Get(first, "code") == Str("401")
    requires |second| > 0 && Get(second, "code") == Str("429")
    ensures Settle(w, Some(first), t1, off).wait == Infinite
    ensures Settle(Settle(w, Some(first), t1, off).wait, Some(second), t2, off).wait == Finite(t2 + 60)
  {
  }
}

=== FILE: weather.dfy ===
/** The pure parts of the weather entity (`weather.py`): the icon-code to
    condition table, the guards of the observation and daily-forecast
    updates, and the projection of the minute-level precipitation feed.
    Numeric attributes are kept as the raw payload values: the conversion
    to floats is not part of this model. */
module Weather {
  import opened Wrappers
  import opened Json
  import Endpoints

  /** The host's weather conditions the table maps onto. */
  datatype Condition =
    | Sunny | ClearNight | Cloudy | PartlyCloudy
    | Rainy | Pouring | LightningRainy | Hail
    | Snowy | SnowyRainy
    | Fog | Exceptional

  /** `CONDITION_MAP.get(code)` for a string code: the provider's icon
      code to condition table, with None for codes it does not list.
      Every listed code is three decimal digits. */
  function ConditionMap(code: string): (r: Option<Condition>)
    ensures r.Some? ==> |code| == 3 && forall i :: 0 <= i < 3 ==> '0' <= code[i] <= '9'
  {
    match code
    case "100" => Some(Sunny)
    case "101" => Some(Cloudy)
    case "102" => Some(PartlyCloudy)
    case "103" => Some(PartlyCloudy)
    case "104" => Some(Cloudy)
    case "150" => Some(ClearNight)
    case "151" => Some(Cloudy)
    case "152" => Some(PartlyCloudy)
    case "153" => Some(PartlyCloudy)
    case "300" => Some(Rainy)
    case "301" => Some(Pouring)
    case "302" => Some(LightningRainy)
    case "303" => Some(LightningRainy)
    case "304" => Some(Hail)
    case "305" => Some(Rainy)
    case "306" => Some(Rainy)
    case "307" => Some(Pouring)
    case "308" => Some(Pouring)
    case "309" => Some(Rainy)
    case "310" => Some(Pouring)
    case "311" => Some(Pouring)
    case "312" => Some(Pouring)
    case "313" => Some(Rainy)
    case "314" => Some(Rainy)
    case "315" => Some(Rainy)
    case "316" => Some(Pouring)
    case "317" => Some(Pouring)
    case "318" => Some(Pouring)
    case "350" => Some(Rainy)
    case "351" => Some(Pouring)
    case "399" => Some(Rainy)
    case "400" => Some(Snowy)
    case "401" => Some(Snowy)
    case "402" => Some(Snowy)
    case "403" => Some(Snowy)
    case "404" => Some(SnowyRainy)
    case "405" => Some(SnowyRainy)
    case "406" => Some(SnowyRainy)
    case "407" => Some(Snowy)
    case "408" => Some(Snowy)
    case "409" => Some(Snowy)
    case "410" => Some(Snowy)
    case "456" => Some(SnowyRainy)
    case "457" => Some(Snowy)
    case "499" => Some(Snowy)
    case "500" => Some(Fog)
    case "501" => Some(Fog)
    case "502" => Some(Fog)
    case "503" => Some(Exceptional)
    case "504" => Some(Exceptional)
    case "507" => Some(Exceptional)
    case "508" => Some(Exceptional)
    case "509" => Some(Fog)
    case "510" => Some(Fog)
    case "511" => Some(Fog)
    case "512" => Some(Fog)
    case "513" => Some(Fog)
    case "514" => Some(Fog)
    case "515" => Some(Fog)
    case "900" => Some(Exceptional)
    case "901" => Some(Exceptional)
    case "999" => Some(Exceptional)
    case _ => None
  }

  /** `CONDITION_MAP.get(icon)`: the lookup hashes the icon, so a list or
      dict icon raises; a code outside the table, a missing icon, or a
      number or boolean icon gives no condition. */
  function ConditionOf(icon: Value): (r: Attempt<Option<Condition>>)
    ensures r.Raised? <==> icon.Arr? || icon.Obj?
    ensures r.Done? && r.value.Some? ==> icon.Str? && |icon.s| == 3
    ensures icon.Null? || icon.Bool? || icon.Num? ==> r == Done(None)
    ensures icon.Str? ==> r == Done(ConditionMap(icon.s))
  {
    match icon
    case Arr(_) => Raised
    case Obj(_) => Raised
    case Str(code) => Done(ConditionMap(code))
    case _ => Done(None)
  }

  /** The conditions an icon family can map to, by the code's first digit:
      1xx sky cover, 3xx rain, 4xx snow, 5xx fog and dust, 9xx other. */
  function Family(lead: char): set<Condition> {
    match lead
    case '1' => {Sunny, ClearNight, Cloudy, PartlyCloudy}
    case '3' => {Rainy, Pouring, LightningRainy, Hail}
    case '4' => {Snowy, SnowyRainy}
    case '5' => {Fog, Exceptional}
    case '9' => {Exceptional}
    case _ => {}
  }

  /** Every entry of the table maps a code into its own family. */
  lemma TableRespectsFamilies(code: string)
    requires ConditionMap(code).Some?
    ensures |code| == 3
    ensures ConditionMap(code).value in Family(code[0])
  {
  }

  /** The daytime clear-sky code alone means sunny and the night-time one
      alone means clear night. */
  lemma ClearSkyCodes(code: string)
    requires ConditionMap(code).Some?
    ensures ConditionMap(code).value == Sunny <==> code == "100"
    ensures ConditionMap(code).value == ClearNight <==> code == "150"
  {
  }

  /** Codes 500 to 515 that the table lists are fog or exceptional; the
      gaps 505 and 506 have no condition. */
  lemma FogBand(code: string)
    requires |code| == 3 && code[0] == '5' && (code[1] == '0' || (code[1] == '1' && code[2] <= '5'))
    ensures ConditionMap(code).Some? ==> ConditionMap(code).value in {Fog, Exceptional}
    ensures code == "505" || code == "506" ==> ConditionOf(Str(code)) == Done(None)
  {
  }

  /** A forecast entry of the host (`Forecast(...)`). */
  datatype Forecast = Forecast(
    condition: Option<Condition>,
    datetime: Value,
    humidity: Value,
    cloudCoverage: Value,
    precipitation: Value,
    pressure: Value,
    temperature: Value,
    templow: Value,
    windBearing: Value,
    windSpeed: Value,
    uvIndex: Value)

  /** The entity attributes the observation and daily updates write. */
  datatype Entity = Entity(
    condition: Option<Condition>,
    humidity: Value,
    cloudCoverage: Value,
    windBearing: Value,
    pressure: Value,
    apparentTemperature: Value,
    temperature: Value,
    visibility: Value,
    windSpeed: Value,
    dewPoint: Value,
    uvIndex: Value,
    forecastDaily: Option<seq<Forecast>>)

  /** `_update_weather_now`: a falsy observation leaves the entity as it
      is; a dict overwrites every current-conditions attribute from its
      fields; anything else has no `.get` and raises, and so does an icon
      the condition table cannot hash. The condition is the first
      attribute written, so a raise leaves every attribute as it was. */
  function UpdateWeatherNow(e: Entity, now: Value): (r: Attempt<Entity>)
    ensures !Truthy(now) ==> r == Done(e)
    ensures r.Raised? <==> Truthy(now) && (!now.Obj? || ConditionOf(Get(now.fields, "icon")).Raised?)
    ensures r.Done? ==> r.value.uvIndex == e.uvIndex && r.value.forecastDaily == e.forecastDaily
    ensures r.Done? && Truthy(now) ==>
      var o := now.fields;
      && r.value.condition == ConditionOf(Get(o, "icon")).value
      && r.value.humidity == Get(o, "humidity")
      && r.value.cloudCoverage == Get(o, "cloud")
      && r.value.windBearing == Get(o, "wind360")
      && r.value.pressure == Get(o, "pressure")
      && r.value.apparentTemperature == Get(o, "feelsLike")
      && r.value.temperature == Get(o, "temp")
      && r.value.visibility == Get(o, "vis")
      && r.value.windSpeed == Get(o, "windSpeed")
      && r.value.dewPoint == Get(o, "dew")
  {
    if !Truthy(now) then Done(e)
    else if !now.Obj? then Raised
    else
      var o := now.fields;
      match ConditionOf(Get(o, "icon"))
      case Raised => Raised
      case Done(condition) =>
        Done(e.(
          condition := condition,
          humidity := Get(o, "humidity"),
          cloudCoverage := Get(o, "cloud"),
          windBearing := Get(o, "wind360"),
          pressure := Get(o, "pressure"),
          apparentTemperature := Get(o, "feelsLike"),
          temperature := Get(o, "temp"),
          visibility := Get(o, "vis"),
          windSpeed := Get(o, "windSpeed"),
          dewPoint := Get(o, "dew")))
  }

  /** Applying the same observation twice is applying it once, and the
      attributes it writes do not depend on what they were before. */
  lemma WeatherNowIdempotent(e1: Entity, e2: Entity, now: Value)
    requires UpdateWeatherNow(e1, now).Done?
    requires e1.uvIndex == e2.uvIndex && e1.forecastDaily == e2.forecastDaily
    ensures UpdateWeatherNow(UpdateWeatherNow(e1, now).value, now) == UpdateWeatherNow(e1, now)
    ensures Truthy(now) ==> UpdateWeatherNow(e2, now) == UpdateWeatherNow(e1, now)
  {
  }

  /** One daily forecast entry, read from a `daily` item; an icon the
      condition table cannot hash raises. */
  function ForecastOf(d: Object): (r: Attempt<Forecast>)
    ensures r.Raised? <==> Get(d, "iconDay").Arr? || Get(d, "iconDay").Obj?
    ensures r.Done? ==>
      var f := r.value;
      && f.condition == ConditionOf(Get(d, "iconDay")).value
      && f.datetime == Get(d, "fxDate")
      && f.humidity == Get(d, "humidity")
      && f.cloudCoverage == Get(d, "cloud")
      && f.precipitation == Get(d, "precip")
      && f.pressure == Get(d, "pressure")
      && f.temperature == Get(d, "tempMax")
      && f.templow == Get(d, "tempMin")
      && f.windBearing == Get(d, "wind360Day")
      && f.windSpeed == Get(d, "windSpeedDay")
      && f.uvIndex == Get(d, "uvIndex")
  {
    match ConditionOf(Get(d, "iconDay"))
    case Raised => Raised
    case Done(condition) =>
      Done(Forecast(
        condition,
        Get(d, "fxDate"),
        Get(d, "humidity"),
        Get(d, "cloud"),
        Get(d, "precip"),
        Get(d, "pressure"),
        Get(d, "tempMax"),
        Get(d, "tempMin"),
        Get(d, "wind360Day"),
        Get(d, "windSpeedDay"),
        Get(d, "uvIndex")))
  }

  /** Every item of a daily list gives a forecast entry. */
  predicate AllForecast(items: seq<Object>) {
    forall i :: 0 <= i < |items| ==> ForecastOf(items[i]).Done?
  }

  /** `_update_weather_daily`: one forecast per input item, in order; the
      UV index is taken from the first item only when there is one; no
      other attribute changes. Items that are not dicts, an input that is
      not iterable, or an item whose icon cannot be hashed raise; the list
      is built before it is stored, so a raise changes nothing. */
  method UpdateWeatherDaily(e: Entity, daily: Value) returns (r: Attempt<Entity>)
    ensures r.Raised? <==> AsObjects(daily).Raised? || !AllForecast(AsObjects(daily).value)
    ensures r.Done? ==>
      var items := AsObjects(daily).value;
      && r.value.forecastDaily.Some?
      && |r.value.forecastDaily.value| == |items|
      && (forall i :: 0 <= i < |items| ==> r.value.forecastDaily.value[i] == ForecastOf(items[i]).value)
      && r.value.uvIndex == (if |items| > 0 then Get(items[0], "uvIndex") else e.uvIndex)
      && r.value == e.(forecastDaily := r.value.forecastDaily, uvIndex := r.value.uvIndex)
  {
    var parsed := AsObjects(daily);
    if parsed.Raised? {
      return Raised;
    }
    var items := parsed.value;
    var forecasts: seq<Forecast> := [];
    var i := 0;
    while i < |items|
      invariant 0 <= i <= |items|
      invariant |forecasts| == i
      invariant forall j :: 0 <= j < i ==> ForecastOf(items[j]).Done?
      invariant forall j :: 0 <= j < i ==> forecasts[j] == ForecastOf(items[j]).value
    {
      var f := ForecastOf(items[i]);
      if f.Raised? {
        return Raised;
      }
      forecasts := forecasts + [f.value];
      i := i + 1;
    }
    var uv := if |items| > 0 then Get(items[0], "uvIndex") else e.uvIndex;
    return Done(e.(forecastDaily := Some(forecasts), uvIndex := uv));
  }

  /** One entry of the minute-level forecast the entity shows. */
  datatype MinuteItem = MinuteItem(time: Value, kind: Value, precipitation: Value)

  /** The two attributes `_update_extra_minutely_precipitation` writes. */
  datatype MinutelyView = MinutelyView(forecast: seq<MinuteItem>, summary: Value)

  /** `item["fxTime"][11:16]`: the hour and minute of an ISO timestamp.
      A missing key raises; slicing works on strings and lists only. */
  function MinuteTime(d: Object): (r: Attempt<Value>)
    ensures "fxTime" in d && d["fxTime"].Str? ==> r.Done? && r.value.Str? && |r.value.s| <= 5
    ensures "fxTime" in d && d["fxTime"].Str? && |d["fxTime"].s| >= 16 ==> r == Done(Str(d["fxTime"].s[11..16]))
    ensures r.Done? <==> "fxTime" in d && (d["fxTime"].Str? || d["fxTime"].Arr?)
    ensures "fxTime" in d && d["fxTime"].Str? ==>
      var s := d["fxTime"].s;
      r == Done(Str(if |s| <= 11 then [] else s[11..if |s| < 16 then |s| else 16]))
    ensures "fxTime" in d && d["fxTime"].Arr? ==>
      var xs := d["fxTime"].items;
      r == Done(Arr(if |xs| <= 11 then [] else xs[11..if |xs| < 16 then |xs| else 16]))
  {
    if "fxTime" !in d then Raised
    else
      match d["fxTime"]
      case Str(s) => Done(Str(Slice(s, 11, 16)))
      case Arr(xs) => Done(Arr(Slice(xs, 11, 16)))
      case _ => Raised
  }

  /** One minute entry: time, `type` and `precip`, each required. */
  function MinuteOf(d: Object): (r: Attempt<MinuteItem>)
    ensures r.Done? <==> MinuteTime(d).Done? && "type" in d && "precip" in d
    ensures r.Done? ==>
      r.value.time == MinuteTime(d).value && r.value.kind == d["type"] && r.value.precipitation == d["precip"]
  {
    match MinuteTime(d)
    case Raised => Raised
    case Done(t) => if "type" in d && "precip" in d then Done(MinuteItem(t, d["type"], d["precip"])) else Raised
  }

  /** The comprehension over the minute items: it raises as soon as one
      item does, and otherwise keeps length and order. */
  function MinuteItems(items: seq<Object>): (r: Attempt<seq<MinuteItem>>)
    ensures r.Done? <==> forall i :: 0 <= i < |items| ==> MinuteOf(items[i]).Done?
    ensures r.Done? ==> |r.value| == |items|
    ensures r.Done? ==> forall i :: 0 <= i < |items| ==> r.value[i] == MinuteOf(items[i]).value
  {
    if |items| == 0 then Done([])
    else
      match (MinuteOf(items[0]), MinuteItems(items[1..]))
      case (Done(x), Done(xs)) => Done([x] + xs)
      case _ => Raised
  }

  /** `_update_extra_minutely_precipitation`: a falsy value gives no minute
      items and no summary; a dict gives its `minutely` items (default
      none) and its `summary`; a truthy non-dict raises. */
  function MinutelyPrecipitation(p: Value): (r: Attempt<MinutelyView>)
    ensures !Truthy(p) ==> r == Done(MinutelyView([], Null))
    ensures Truthy(p) && !p.Obj? ==> r.Raised?
    ensures r.Done? && Truthy(p) ==>
      r.value.summary == Get(p.fields, "summary")
      && AsObjects(GetOr(p.fields, "minutely", Arr([]))).Done?
      && |r.value.forecast| == |AsObjects(GetOr(p.fields, "minutely", Arr([]))).value|
    ensures Truthy(p) && p.Obj? ==>
      var items := AsObjects(GetOr(p.fields, "minutely", Arr([])));
      && (r.Done? <==> items.Done? && MinuteItems(items.value).Done?)
      && (r.Done? ==> r.value.forecast == MinuteItems(items.value).value)
  {
    if !Truthy(p) then Done(MinutelyView([], Null))
    else if !p.Obj? then Raised
    else
      match AsObjects(GetOr(p.fields, "minutely", Arr([])))
      case Raised => Raised
      case Done(items) =>
        match MinuteItems(items)
        case Raised => Raised
        case Done(forecast) => Done(MinutelyView(forecast, Get(p.fields, "summary")))
  }

  /** What the precipitation wrapper yields without data shows an empty
      summary and no minute items. */
  lemma MinutelyFallbackView()
    ensures MinutelyPrecipitation(Endpoints.Fallback(Endpoints.Endpoint.MinutelyPrecipitation))
         == Done(MinutelyView([], Str("")))
  {
  }

  /** Each minute entry's time is characters 11 to 16 of its timestamp,
      e.g. "2021-12-16T18:55+08:00" shows as "18:55". */
  lemma MinuteTimeIsHourAndMinute(p: Value, i: nat)
    requires MinutelyPrecipitation(p).Done? && Truthy(p)
    requires i < |MinutelyPrecipitation(p).value.forecast|
    ensures var items := AsObjects(GetOr(p.fields, "minutely", Arr([]))).value;
      && i < |items| && "fxTime" in items[i]
      && (items[i]["fxTime"].Str? && |items[i]["fxTime"].s| >= 16 ==>
            MinutelyPrecipitation(p).value.forecast[i].time == Str(items[i]["fxTime"].s[11..16]))
  {
  }
}

=== FILE: wrappers.dfy ===
/** Small value wrappers shared by every module of the model. */
module Wrappers {

  /** A value that may be missing: Python's `X | None`. */
  datatype Option<+T> = None | Some(value: T)

  /** The outcome of evaluating a Python expression that either returns a
      value or raises an exception (KeyError, TypeError, AttributeError). */
  datatype Attempt<+T> = Done(value: T) | Raised
}
